=== FILE: README.md ===
# Response cache middleware — decision engine model

This project models the request-level decision engine of the fiber HTTP response cache
middleware (`middleware/cache`). The engine is a pure state machine:

- **State**: a store mapping each cache key to an entry. An entry holds a status code, a
  body and an integer expiry time.
- **Config**: the configuration record as the caller writes it. It has an expiration in
  seconds, a Cache-Control flag, a status-header name, an optional bypass predicate (`Next`)
  and an optional key generator. A zero value means "use the default", as in the Go record.
- **Step** (`Cache.Step`): handles one request. Its inputs are the request (method, path,
  query), the response the downstream handler would produce, and the current time. It
  returns the emitted reply and the new store. The reply has a status, a body, an optional
  `Cache-Control` value, the status-header name, and the cache status: `hit`, `miss` or
  `unreachable`.

One step decides as follows:

1. The bypass predicate is asked first, with the request and status 200. Status 200 is
   what a response carries before any handler runs.
2. If the predicate says skip, or the method is not GET, or the lifetime is not positive,
   the handler's response passes through as `unreachable`. The store is neither read nor
   written.
3. Otherwise the key is computed. The default key is the request path alone; the query is
   ignored.
4. A stored entry that has not expired (`now < expires`) is replayed as a `hit`. It keeps
   its stored status and body. With Cache-Control on, the reply carries
   `public, max-age=<seconds left>`.
5. With no such entry, the handler's response is emitted. If the bypass predicate, asked
   again with the handler's status, says skip, the reply is `unreachable` and nothing is
   stored.
6. Otherwise the response is stored as a `miss`, with expiry `now + lifetime`.

An expiration of zero falls back to the default lifetime of 60 seconds. A negative
expiration disables caching: nothing is stored and nothing is served from the store.

Modules:

- `Optional`: the option type.
- `Decimal`: decimal numerals, for `max-age` and for reading numeric bodies back.
- `Cache`: the data model and `Step`.
- `CacheLaws`: properties of one step and of two steps in a row.
- `Trace`: `Replay` over event sequences, with inductive properties.
- `CacheTests`: each test of `cache_test.go` as a trace lemma.

Time is an explicit integer parameter. The handler is an input, not a call.

Modelling decisions, each grounded in the test it cites:

- A zero expiration still caches (`cache_test.go:137-160`): zero means the default
  lifetime.
- A negative expiration never serves a repeat (`cache_test.go:201-224`). Such a request
  is reported as `unreachable`; the test does not read its status header.
- The default key is the path only: `/get?cache=12345` is served the body cached for
  `/get?cache=123` (`cache_test.go:188-198`).
- Any status is cached unless a bypass predicate rejects it. The tests leave this open:
  the benchmarks' end state (status 418 and the full body, `cache_test.go:363-364`) holds
  whether the reply comes from the store or from the handler, and no test excludes other
  statuses by default. Storing every status is a choice of this model.
- `Cache-Control` is emitted only on hits. The tests assert it only there
  (`cache_test.go:38`, `cache_test.go:255`) and assert its absence on `unreachable`
  replies (`cache_test.go:262`).

## Model

| member | source | states |
|---|---|---|
| `Cache.Step` | middleware/cache/cache_test.go:306-320 | A hit replays the fresh entry under the request's key and leaves the store unchanged. With Cache-Control on, every hit carries `public, max-age=<seconds left>` for that entry (as the tests expect at lines 38 and 255), and only hits carry it. Every other outcome emits the handler's live response. `unreachable` never touches the store and never carries Cache-Control. Only a cacheable request (not bypassed, GET, positive lifetime) can be a hit or a miss, so a non-positive lifetime always gives `unreachable`. A miss stores the live response for that positive lifetime. No key other than the request's own changes. The configured header always reports the outcome. |
| `Cache.Expiration` | middleware/cache/cache_test.go:137-160 | New entries get a positive lifetime exactly when the configured expiration is non-negative, so zero still caches. A non-zero configured value is used as given. |
| `Cache.StatusHeader` | middleware/cache/cache_test.go:323-336 | The cache-status header is never unnamed. A configured name is used as given; with none configured the header is `X-Cache`, the name read at lines 308-320. |
| `Cache.CacheControlRoundTrip` | middleware/cache/cache_test.go:38 | The `public, max-age=<n>` value reads back as exactly `n`, so the header carries the remaining lifetime faithfully. |
| `Decimal.FormatNat` | middleware/cache/cache_test.go:38 | The rendered `max-age` is a non-empty string of digits, with no leading zero unless it is 0. |
| `Decimal.ParseNat` | middleware/cache/cache_test.go:127 | Reading a numeric body succeeds exactly for non-empty all-digit strings. It is stricter than `strconv.Atoi`: signs and the out-of-range error are not modelled. Only `ParseNat(b) == Some(n)` implying that `Atoi(b)` gives `n` is relied on. |
| `Decimal.ParseFormat` | middleware/cache/cache_test.go:127-131 | Reading a rendered number gives back that number, so an echoed id reads back as the id. |
| `Decimal.FormatParse` | middleware/cache/cache_test.go:127-131 | Every canonical numeral reads as a number whose rendering is that numeral. Rendering and reading are inverse on canonical numerals. |
| `CacheLaws.HitIffFresh` | middleware/cache/cache_test.go:306-312 | A request is a hit if and only if caching applies to it (not bypassed, GET, positive lifetime) and a fresh entry exists under its key. |
| `CacheLaws.MissIffStored` | middleware/cache/cache_test.go:306-320 | A request is a miss if and only if caching applies (not bypassed, GET, positive lifetime), no fresh entry exists, and the post-handler bypass check passes. |
| `CacheLaws.NonGetPassesThrough` | middleware/cache/cache_test.go:176-186 | A non-GET request is `unreachable`, replies with its handler's live response, and leaves the store unchanged. |
| `CacheLaws.DefaultKeyIgnoresQuery` | middleware/cache/cache_test.go:188-198 | Under the default key generator, requests with the same path share a key whatever their query. |
| `CacheLaws.MissStoresUnderGeneratedKey` | middleware/cache/cache_test.go:265-281 | With a custom key generator, a miss stores its response under the generated key. |
| `CacheLaws.HitAfterMiss` | middleware/cache/cache_test.go:79-101 | After a miss, a later cacheable request with the same key within the lifetime is a hit. It replays the stored status and body whatever the handler would now produce. Its `max-age` is the remaining lifetime. |
| `CacheLaws.ExpiredEntryNotServed` | middleware/cache/cache_test.go:56-66 | An entry whose expiry has passed is never served; the handler's response is emitted. |
| `CacheLaws.ExpiredEntryReplaced` | middleware/cache/cache_test.go:68-76 | Recomputing a cacheable request over an expired entry is a miss that overwrites the entry with the new response and a new expiry. |
| `CacheLaws.NegativeExpirationStoresNothing` | middleware/cache/cache_test.go:201-224 | With a negative expiration, whatever the store holds, a step leaves it unchanged, is `unreachable`, and replies with the handler's live status and body. |
| `CacheLaws.ZeroExpirationCaches` | middleware/cache/cache_test.go:137-160 | With a zero expiration, an eligible request is still stored, for the default lifetime. |
| `CacheLaws.StepKeepsEntriesWithin` | middleware/cache/cache_test.go:24-27 | As time moves forward, every stored entry expires at most one configured lifetime after the current time. |
| `CacheLaws.MaxAgeBounded` | middleware/cache/cache_test.go:21-38 | A Cache-Control value announced on a hit reads as a `max-age` between 1 and the configured lifetime. |
| `Trace.Replay` | middleware/cache/cache_test.go:116-134 | Handling requests one after another gives one reply per request, each under the configured status-header name. |
| `Trace.NegativeExpirationNeverServes` | middleware/cache/cache_test.go:201-224 | With a negative expiration, from any store, the store is unchanged along any run. No reply is a hit, and each reply is its handler's live body. |
| `Trace.KeyDeterminedReplies` | middleware/cache/cache_test.go:104-134 | Keys never interfere. If every handler's response depends only on the request's key, every reply has that key's status and body, cached or not. |
| `Trace.MaxAgeBoundedAlongRun` | middleware/cache/cache_test.go:21-38 | Along any run with a forward-moving clock, every Cache-Control value reads as a `max-age` between 1 and the lifetime. |
| `CacheTests.CacheControlScenario` | middleware/cache/cache_test.go:21-39 | With Cache-Control on and a 10 s lifetime, a hit in the second of the store carries exactly `public, max-age=10`. |
| `CacheTests.ExpiredScenario` | middleware/cache/cache_test.go:41-77 | With a 2 s lifetime, the request 3 s later gets a different, recomputed body. The request right after it gets that same new body. |
| `CacheTests.RepeatScenario` | middleware/cache/cache_test.go:79-102 | Under the default configuration, two GETs of one path report miss then hit and return identical bodies. |
| `CacheTests.SeveralRequestsScenario` | middleware/cache/cache_test.go:104-135 | Over any number of rounds, at any times, each reply for `/<id>` reads back as `id`. |
| `CacheTests.ZeroExpirationScenario` | middleware/cache/cache_test.go:137-161 | With a zero expiration, the repeated GET returns the first body. |
| `CacheTests.InvalidMethodScenario` | middleware/cache/cache_test.go:163-199 | POSTs reflect their own query (`123`, `12345`) and are `unreachable`. The second GET of `/get` is a hit with the body cached for `cache=123`. |
| `CacheTests.NothingToCacheScenario` | middleware/cache/cache_test.go:201-225 | With a negative expiration, two requests whose live bodies differ get different replies. |
| `CacheTests.CustomNextScenario` | middleware/cache/cache_test.go:227-263 | With a non-200 bypass: `/` is cached and its hit has a non-empty Cache-Control. `/error` (500) is `unreachable`, is not stored, and has no Cache-Control. |
| `CacheTests.CustomKeyScenario` | middleware/cache/cache_test.go:265-282 | With a path-returning key generator, the first GET is a miss stored under that key. |
| `CacheTests.CacheHeaderScenario` | middleware/cache/cache_test.go:284-321 | The `X-Cache` header reads `miss`, then `hit`, then `unreachable` for a POST and for a 500 response. |
| `CacheTests.CustomCacheHeaderScenario` | middleware/cache/cache_test.go:323-337 | With `Cache-Status` configured, the first GET's status header is named `Cache-Status` and reads `miss`. |
| `CacheTests.ReplayScenario` | middleware/cache/cache_test.go:340-365 | Repeated GETs of `/demo` answered 418 with a body over 30000 bytes end with status 418 and exactly that body, whatever mix of hits and misses occurs and whatever the key generator. |

## Left out

- HTTP plumbing: fiber/fasthttp request handling, `app.Test`, routing and handler invocation. The handler's response is an input of `Step`.
- The real clock, `time.Sleep` and `t.Parallel`. Time is an integer number of seconds passed to each step. Sub-second durations and the truncation of durations to whole seconds are not modelled.
- Time-varying handler bodies (`time.Now()`): they are arbitrary inputs. A scenario that needs two of them to differ says so in its `requires`.
- The storage backend (`memory.New`, line 372), its own TTL eviction and the byte encoding of entries. Storage is a map from key to entry. No encode/decode round trip is claimed, because no codec is part of this model. `Benchmark_Cache_Storage` is therefore the same trace as `Benchmark_Cache`.
- Content type and content encoding of stored responses. The tests never read them back.
- Per-key locking and concurrency. Requests are handled one at a time, as the tests issue them.
- Request methods other than GET are never cached. Whether HEAD is cached is not settled by the tests, so it is treated like any other non-GET method.
- CacheTests.CustomKeyScenario: the side effect of the key generator setting a flag (`called`, lines 267-280) is not modelled. The model states only that the configured generator determines the key.
- CacheTests.CustomCacheHeaderScenario: the header name is carried as an opaque string. Header maps and a clash between the status-header name and `Cache-Control` are not modelled.
- CacheTests.ReplayScenario: the benchmark's file read (`ioutil.ReadFile`) and the `b.N` loop are not modelled. The body is any string longer than 30000 characters, and the loop is any non-empty run of requests at any times.
- Bodies are character strings, not byte slices.
- Cache.Step: with no bypass predicate, the default stores responses of every status. No test decides whether non-200 responses are cached by default, so this is a modelling choice rather than a promise of the source.
- Cache.Cacheable: the bypass predicate is also asked before the lookup, with status 200; no test pins that call. A predicate that depends only on the request therefore bypasses before the store is read. The tests' status-based predicates are false at that point. A bypass before the lookup is reported as `unreachable` with the status header set; no test shows that either. The predicate sees only the request and the current response status, whereas the configured `Next` receives the whole request context (`cache_test.go:231-233` reads the response status from it).
- Cache.DefaultExpiration: the value 60 seconds is the library's default configuration, which no test shows; the proofs use only that it is positive.
- Storage failures and decode failures: the tests do not exercise them.

=== FILE: cache.dfy ===
/**
  The request-level decision engine of the response cache middleware, as a pure state
  machine. One call of `Step` handles one request: it decides whether the request may be
  cached at all, serves a fresh stored entry when one exists, and otherwise passes the
  downstream handler's response through, storing it when it is eligible.

  The handler is not invoked by the model: its response is an input of `Step`, and it is
  used only when the request is not served from the store. Time is an integer number of
  seconds supplied by the caller.
 */
module Cache {
  import opened Optional
  import opened Decimal

  /** Status of a response before any handler has set one (HTTP 200 OK). */
  const StatusOK: int := 200

  /** Lifetime, in seconds, used when the configured expiration is zero (one minute). */
  const DefaultExpiration: int := 60

  /** Header carrying the cache-status token when none is configured. */
  const DefaultCacheHeader: string := "X-Cache"

  /** The only request method whose responses are cached. */
  const MethodGet: string := "GET"

  const CacheControlPrefix: string := "public, max-age="

  datatype Request = Request(verb: string, path: string, query: string)

  /** What the downstream handler produced. */
  datatype Response = Response(status: int, body: string)

  /** A stored response; it is served while `now < expires`. */
  datatype Entry = Entry(status: int, body: string, expires: int)

  /** The storage backend, seen as a map from cache key to entry. */
  type Store = map<string, Entry>

  /** What the bypass predicate may look at: the request and the current response status. */
  datatype Context = Context(request: Request, status: int)

  /**
    The middleware configuration as the caller writes it; a zero value means "use the
    default", exactly as an omitted field of the configuration record does.
   */
  datatype Config = Config(
    expiration: int,
    cacheControl: bool,
    cacheHeader: string,
    next: Option<Context -> bool>,
    keyGenerator: Option<Request -> string>)

  /** The configuration with every field left at its zero value. */
  function NewConfig(): Config {
    Config(0, false, "", None, None)
  }

  datatype CacheStatus = Hit | Miss | Unreachable {
    /** The literal written to the cache-status header. */
    function Token(): string {
      match this
      case Hit => "hit"
      case Miss => "miss"
      case Unreachable => "unreachable"
    }
  }

  /** The response the middleware emits. */
  datatype Reply = Reply(
    status: int,
    body: string,
    cacheControl: Option<string>,
    statusHeader: string,
    cacheStatus: CacheStatus)

  datatype StepResult = StepResult(reply: Reply, store: Store)

  /** Lifetime of new entries: a zero expiration falls back to the default; a negative one is kept. */
  function Expiration(cfg: Config): (e: int)
    ensures e > 0 <==> cfg.expiration >= 0
    ensures cfg.expiration != 0 ==> e == cfg.expiration
  {
    if cfg.expiration == 0 then DefaultExpiration else cfg.expiration
  }

  /** Name of the cache-status header: the configured one, or `X-Cache` when none is. */
  function StatusHeader(cfg: Config): (name: string)
    ensures name != ""
    ensures cfg.cacheHeader != "" ==> name == cfg.cacheHeader
    ensures cfg.cacheHeader == "" ==> name == "X-Cache"
  {
    if cfg.cacheHeader == "" then DefaultCacheHeader else cfg.cacheHeader
  }

  /** The cache key of a request: the configured generator's, or else the bare path. */
  function Key(cfg: Config, req: Request): string {
    match cfg.keyGenerator
    case Some(gen) => gen(req)
    case None => req.path
  }

  predicate Bypassed(cfg: Config, ctx: Context) {
    cfg.next.Some? && cfg.next.value(ctx)
  }

  /**
    Caching applies: the bypass predicate, asked before the handler runs, says no, the
    method is GET, and the lifetime is positive. Otherwise the store is neither read nor written.
   */
  predicate Cacheable(cfg: Config, req: Request) {
    !Bypassed(cfg, Context(req, StatusOK)) && req.verb == MethodGet && Expiration(cfg) > 0
  }

  /** The entry stored under `key`, if there is one and it has not expired at `now`. */
  function Lookup(st: Store, key: string, now: int): Option<Entry> {
    if key in st && now < st[key].expires then Some(st[key]) else None
  }

  function CacheControlValue(maxAge: nat): string {
    CacheControlPrefix + FormatNat(maxAge)
  }

  /** Reads the `max-age` back out of a `public, max-age=<n>` header value. */
  function ParseCacheControl(v: string): Option<nat> {
    if |CacheControlPrefix| <= |v| && v[..|CacheControlPrefix|] == CacheControlPrefix
    then ParseNat(v[|CacheControlPrefix|..])
    else None
  }

  /** The emitted header value carries exactly the remaining lifetime it was built from. */
  lemma CacheControlRoundTrip(maxAge: nat)
    ensures ParseCacheControl(CacheControlValue(maxAge)) == Some(maxAge)
  {
    var v := CacheControlValue(maxAge);
    assert v[..|CacheControlPrefix|] == CacheControlPrefix;
    assert v[|CacheControlPrefix|..] == FormatNat(maxAge);
    ParseFormat(maxAge);
  }

  /** The handler's response, passed through untouched and reported as not cacheable. */
  function PassThrough(cfg: Config, st: Store, h: Response): StepResult {
    StepResult(Reply(h.status, h.body, None, StatusHeader(cfg), Unreachable), st)
  }

  /** Handles one request at time `now`, given the response the handler would produce. */
  function Step(cfg: Config, st: Store, req: Request, h: Response, now: int): (r: StepResult)
    // the configured header always reports the outcome
    ensures r.reply.statusHeader == StatusHeader(cfg)
    // only a cacheable request (not bypassed, GET, positive lifetime) can be a hit or a miss
    ensures r.reply.cacheStatus != Unreachable ==> Cacheable(cfg, req)
    // a hit replays the fresh entry under the request's key and leaves the store alone
    ensures r.reply.cacheStatus == Hit ==>
      && Key(cfg, req) in st
      && now < st[Key(cfg, req)].expires
      && r.reply.status == st[Key(cfg, req)].status
      && r.reply.body == st[Key(cfg, req)].body
      && r.store == st
    // every other outcome emits the handler's live response
    ensures r.reply.cacheStatus != Hit ==> r.reply.status == h.status && r.reply.body == h.body
    // a request that is not cached never touches the store and carries no Cache-Control
    ensures r.reply.cacheStatus == Unreachable ==> r.store == st && r.reply.cacheControl.None?
    ensures r.reply.cacheControl.Some? ==> cfg.cacheControl && r.reply.cacheStatus == Hit
    // with Cache-Control on, a hit announces the entry's remaining lifetime
    ensures r.reply.cacheStatus == Hit && cfg.cacheControl ==>
      r.reply.cacheControl == Some(CacheControlValue(st[Key(cfg, req)].expires - now))
    // a miss stores the live response under the request's key for a positive lifetime
    ensures r.reply.cacheStatus == Miss ==>
      && Expiration(cfg) > 0
      && r.store == st[Key(cfg, req) := Entry(h.status, h.body, now + Expiration(cfg))]
    // no other key is affected
    ensures forall k :: k != Key(cfg, req) ==>
      (k in r.store <==> k in st) && (k in st ==> r.store[k] == st[k])
  {
    if !Cacheable(cfg, req) then PassThrough(cfg, st, h)
    else
      var key := Key(cfg, req);
      match Lookup(st, key, now)
      case Some(e) =>
        var cc := if cfg.cacheControl then Some(CacheControlValue(e.expires - now)) else None;
        StepResult(Reply(e.status, e.body, cc, StatusHeader(cfg), Hit), st)
      case None =>
        if Bypassed(cfg, Context(req, h.status)) then PassThrough(cfg, st, h)
        else
          var stored := st[key := Entry(h.status, h.body, now + Expiration(cfg))];
          StepResult(Reply(h.status, h.body, None, StatusHeader(cfg), Miss), stored)
  }
}

=== FILE: cache_laws.dfy ===
/** Properties of a single decision step, and of two steps in a row on the same key. */
module CacheLaws {
  import opened Optional
  import opened Cache

  /** A request is served from the store exactly when caching applies and a fresh entry exists. */
  lemma HitIffFresh(cfg: Config, st: Store, req: Request, h: Response, now: int)
    ensures Step(cfg, st, req, h, now).reply.cacheStatus == Hit
        <==> Cacheable(cfg, req) && Lookup(st, Key(cfg, req), now).Some?
  {
  }

  /**
    A response is stored exactly when caching applies (so the lifetime is positive), no fresh
    entry exists, and the bypass predicate asked after the handler says no.
   */
  lemma MissIffStored(cfg: Config, st: Store, req: Request, h: Response, now: int)
    ensures Step(cfg, st, req, h, now).reply.cacheStatus == Miss
        <==> && Cacheable(cfg, req)
             && Lookup(st, Key(cfg, req), now).None?
             && !Bypassed(cfg, Context(req, h.status))
  {
  }

  /** Only GET requests are cached: any other method passes the live response through. */
  lemma NonGetPassesThrough(cfg: Config, st: Store, req: Request, h: Response, now: int)
    requires req.verb != MethodGet
    ensures var r := Step(cfg, st, req, h, now);
      && r.reply.cacheStatus == Unreachable
      && r.reply.status == h.status && r.reply.body == h.body
      && r.store == st
  {
  }

  /** With the default key, requests that differ only in their query share one entry. */
  lemma DefaultKeyIgnoresQuery(cfg: Config, req1: Request, req2: Request)
    requires cfg.keyGenerator.None?
    requires req1.path == req2.path
    ensures Key(cfg, req1) == Key(cfg, req2)
  {
  }

  /** Whatever the configured key generator returns is where a miss stores its entry. */
  lemma MissStoresUnderGeneratedKey(cfg: Config, st: Store, req: Request, h: Response, now: int, gen: Request -> string)
    requires cfg.keyGenerator == Some(gen)
    requires Step(cfg, st, req, h, now).reply.cacheStatus == Miss
    ensures gen(req) in Step(cfg, st, req, h, now).store
    ensures Step(cfg, st, req, h, now).store[gen(req)].body == h.body
  {
  }

  /**
    Hit stability: once a response is stored, a later cacheable request with the same key,
    within the lifetime, is a hit that replays the stored status and body whatever the
    handler would now produce; with Cache-Control on, `max-age` is the remaining lifetime.
   */
  lemma HitAfterMiss(cfg: Config, st: Store, req1: Request, h1: Response, t1: int,
                     req2: Request, h2: Response, t2: int)
    requires Step(cfg, st, req1, h1, t1).reply.cacheStatus == Miss
    requires Cacheable(cfg, req2) && Key(cfg, req2) == Key(cfg, req1)
    requires t1 <= t2 < t1 + Expiration(cfg)
    ensures var r2 := Step(cfg, Step(cfg, st, req1, h1, t1).store, req2, h2, t2);
      && r2.reply.cacheStatus == Hit
      && r2.reply.status == h1.status && r2.reply.body == h1.body
      && (cfg.cacheControl ==> r2.reply.cacheControl == Some(CacheControlValue(t1 + Expiration(cfg) - t2)))
  {
  }

  /** An entry whose expiry has passed is never served: the handler's response is emitted. */
  lemma ExpiredEntryNotServed(cfg: Config, st: Store, req: Request, h: Response, now: int)
    requires Key(cfg, req) in st && st[Key(cfg, req)].expires <= now
    ensures var r := Step(cfg, st, req, h, now);
      r.reply.cacheStatus != Hit && r.reply.status == h.status && r.reply.body == h.body
  {
  }

  /** After an expired entry is recomputed, the new response replaces it under the same key. */
  lemma ExpiredEntryReplaced(cfg: Config, st: Store, req: Request, h: Response, now: int)
    requires Key(cfg, req) in st && st[Key(cfg, req)].expires <= now
    requires Cacheable(cfg, req) && !Bypassed(cfg, Context(req, h.status))
    ensures var r := Step(cfg, st, req, h, now);
      && r.reply.cacheStatus == Miss
      && r.store[Key(cfg, req)] == Entry(h.status, h.body, now + Expiration(cfg))
  {
  }

  /**
    A negative expiration disables caching: whatever the store holds, nothing is stored and
    nothing is served from it; the reply is the handler's live response.
   */
  lemma NegativeExpirationStoresNothing(cfg: Config, st: Store, req: Request, h: Response, now: int)
    requires cfg.expiration < 0
    ensures Step(cfg, st, req, h, now).store == st
    ensures Step(cfg, st, req, h, now).reply.cacheStatus == Unreachable
    ensures Step(cfg, st, req, h, now).reply.status == h.status
    ensures Step(cfg, st, req, h, now).reply.body == h.body
  {
  }

  /** A zero expiration still caches, for the default lifetime. */
  lemma ZeroExpirationCaches(cfg: Config, st: Store, req: Request, h: Response, now: int)
    requires cfg.expiration == 0
    requires Cacheable(cfg, req) && Lookup(st, Key(cfg, req), now).None?
    requires !Bypassed(cfg, Context(req, h.status))
    ensures var r := Step(cfg, st, req, h, now);
      && r.reply.cacheStatus == Miss
      && r.store[Key(cfg, req)].expires == now + DefaultExpiration
  {
  }

  /** Every stored entry expires at most one lifetime after `now`. */
  ghost predicate EntriesWithin(st: Store, now: int, lifetime: int) {
    forall k :: k in st ==> st[k].expires <= now + lifetime
  }

  /** As time moves forward, a step keeps every entry within one lifetime of the clock. */
  lemma StepKeepsEntriesWithin(cfg: Config, st: Store, req: Request, h: Response, t: int, now: int)
    requires EntriesWithin(st, t, Expiration(cfg)) && t <= now
    ensures EntriesWithin(Step(cfg, st, req, h, now).store, now, Expiration(cfg))
  {
    var r := Step(cfg, st, req, h, now);
    forall k | k in r.store
      ensures r.store[k].expires <= now + Expiration(cfg)
    {
      if k != Key(cfg, req) {
        assert k in st && r.store[k] == st[k];
      }
    }
  }

  /**
    The `max-age` announced on a hit is the entry's remaining lifetime, so it lies between 1
    and the configured lifetime.
   */
  lemma MaxAgeBounded(cfg: Config, st: Store, req: Request, h: Response, t: int, now: int)
    requires EntriesWithin(st, t, Expiration(cfg)) && t <= now
    ensures var r := Step(cfg, st, req, h, now);
      r.reply.cacheControl.Some? ==>
        var age := ParseCacheControl(r.reply.cacheControl.value);
        age.Some? && 1 <= age.value <= Expiration(cfg)
  {
    var r := Step(cfg, st, req, h, now);
    if r.reply.cacheControl.Some? {
      var e := st[Key(cfg, req)];
      assert r.reply.cacheControl.value == CacheControlValue(e.expires - now);
      CacheControlRoundTrip(e.expires - now);
    }
  }
}

=== FILE: cache_tests.dfy ===
/**
  The middleware's test scenarios as traces of decision steps. Handler responses whose
  content varies with the clock are arbitrary inputs, constrained only as far as the
  scenario needs (two calls at different times give different bodies).
 */
module CacheTests {
  import opened Optional
  import opened Decimal
  import opened Cache
  import opened CacheLaws
  import opened Trace

  function Get(path: string): Request {
    Request(MethodGet, path, "")
  }

  /** The bypass predicate of the scenarios: skip caching unless the response status is 200. */
  predicate NotOk(ctx: Context) {
    ctx.status != StatusOK
  }

  /** Cache-Control on, 10 s lifetime: a hit in the second of the store announces `max-age=10`. */
  lemma CacheControlScenario(h1: Response, h2: Response, t: int)
    ensures var cfg := NewConfig().(cacheControl := true, expiration := 10);
      var r1 := Step(cfg, map[], Get("/"), h1, t);
      var r2 := Step(cfg, r1.store, Get("/"), h2, t);
      r2.reply.cacheControl == Some("public, max-age=10")
  {
    var cfg := NewConfig().(cacheControl := true, expiration := 10);
    HitAfterMiss(cfg, map[], Get("/"), h1, t, Get("/"), h2, t);
    assert FormatNat(1) == "1" && DigitChar(0) == '0';
    assert FormatNat(10) == "10";
    assert CacheControlValue(10) == "public, max-age=10";
  }

  /**
    2 s lifetime: after 3 s the entry has expired, so the handler's new body is emitted;
    the request right after it is served that new body.
   */
  lemma ExpiredScenario(h1: Response, h2: Response, h3: Response, t: int)
    requires h1.body != h2.body
    ensures var cfg := NewConfig().(expiration := 2);
      var r1 := Step(cfg, map[], Get("/"), h1, t);
      var r2 := Step(cfg, r1.store, Get("/"), h2, t + 3);
      var r3 := Step(cfg, r2.store, Get("/"), h3, t + 3);
      && r2.reply.body != r1.reply.body
      && r3.reply.body == r2.reply.body
  {
    var cfg := NewConfig().(expiration := 2);
    var r1 := Step(cfg, map[], Get("/"), h1, t);
    ExpiredEntryReplaced(cfg, r1.store, Get("/"), h2, t + 3);
    var r2 := Step(cfg, r1.store, Get("/"), h2, t + 3);
    HitAfterMiss(cfg, r1.store, Get("/"), h2, t + 3, Get("/"), h3, t + 3);
  }

  /** Default configuration: two GETs of one path give identical bodies, miss then hit. */
  lemma RepeatScenario(h1: Response, h2: Response, t: int)
    ensures var r1 := Step(NewConfig(), map[], Get("/"), h1, t);
      var r2 := Step(NewConfig(), r1.store, Get("/"), h2, t);
      && r1.reply.cacheStatus == Miss && r2.reply.cacheStatus == Hit
      && r2.reply.body == r1.reply.body
  {
    HitAfterMiss(NewConfig(), map[], Get("/"), h1, t, Get("/"), h2, t);
  }

  /** The request for `/<id>` and a handler that echoes the id. */
  function IdRequest(id: nat): Request {
    Get("/" + FormatNat(id))
  }

  function EchoId(key: string): Response {
    Response(StatusOK, if |key| == 0 then "" else key[1..])
  }

  /** `runs` rounds of requests for `/0` to `/9`, each at a time of the caller's choosing. */
  function SeveralRequests(runs: nat, times: seq<int>): (evs: seq<Event>)
    requires |times| == 10 * runs
    ensures |evs| == 10 * runs
  {
    seq(10 * runs, i requires 0 <= i < 10 * runs =>
      Event(IdRequest(i % 10), EchoId(IdRequest(i % 10).path), times[i]))
  }

  /** Over any number of rounds, every request for `/<id>` is answered with its own id. */
  lemma SeveralRequestsScenario(runs: nat, times: seq<int>)
    requires |times| == 10 * runs
    ensures var cfg := NewConfig().(cacheControl := true, expiration := 10);
      var replies := Replay(cfg, map[], SeveralRequests(runs, times)).replies;
      forall i :: 0 <= i < 10 * runs ==> ParseNat(replies[i].body) == Some(i % 10)
  {
    var cfg := NewConfig().(cacheControl := true, expiration := 10);
    var evs := SeveralRequests(runs, times);
    KeyDeterminedReplies(cfg, map[], evs, EchoId);
    forall i | 0 <= i < 10 * runs
      ensures ParseNat(Replay(cfg, map[], evs).replies[i].body) == Some(i % 10)
    {
      var path := "/" + FormatNat(i % 10);
      assert path[1..] == FormatNat(i % 10);
      ParseFormat(i % 10);
    }
  }

  /** A zero expiration still caches: the repeated GET is served the first body. */
  lemma ZeroExpirationScenario(h1: Response, h2: Response, t: int)
    ensures var cfg := NewConfig().(expiration := 0);
      var r1 := Step(cfg, map[], Get("/"), h1, t);
      var r2 := Step(cfg, r1.store, Get("/"), h2, t);
      r2.reply.body == r1.reply.body
  {
    var cfg := NewConfig().(expiration := 0);
    HitAfterMiss(cfg, map[], Get("/"), h1, t, Get("/"), h2, t);
  }

  /**
    POSTs always reach the handler and reflect their own query; GETs of `/get` share the
    path-only key, so the second one is served the body cached for `cache=123`.
   */
  lemma InvalidMethodScenario(t: int)
    ensures var cfg := NewConfig();
      var r1 := Step(cfg, map[], Request("POST", "/", "cache=123"), Response(StatusOK, "123"), t);
      var r2 := Step(cfg, r1.store, Request("POST", "/", "cache=12345"), Response(StatusOK, "12345"), t);
      var r3 := Step(cfg, r2.store, Request(MethodGet, "/get", "cache=123"), Response(StatusOK, "123"), t);
      var r4 := Step(cfg, r3.store, Request(MethodGet, "/get", "cache=12345"), Response(StatusOK, "12345"), t);
      && r1.reply.body == "123" && r1.reply.cacheStatus == Unreachable
      && r2.reply.body == "12345" && r2.reply.cacheStatus == Unreachable
      && r3.reply.body == "123"
      && r4.reply.body == "123" && r4.reply.cacheStatus == Hit
  {
    var cfg := NewConfig();
    NonGetPassesThrough(cfg, map[], Request("POST", "/", "cache=123"), Response(StatusOK, "123"), t);
    NonGetPassesThrough(cfg, map[], Request("POST", "/", "cache=12345"), Response(StatusOK, "12345"), t);
    HitAfterMiss(cfg, map[], Request(MethodGet, "/get", "cache=123"), Response(StatusOK, "123"), t,
                 Request(MethodGet, "/get", "cache=12345"), Response(StatusOK, "12345"), t);
  }

  /** A negative expiration: two requests with different live bodies get different replies. */
  lemma NothingToCacheScenario(h1: Response, h2: Response, t1: int, t2: int)
    requires h1.body != h2.body
    ensures var cfg := NewConfig().(expiration := -1);
      var replies := Replay(cfg, map[], [Event(Get("/"), h1, t1), Event(Get("/"), h2, t2)]).replies;
      replies[0].body != replies[1].body
  {
    var cfg := NewConfig().(expiration := -1);
    NegativeExpirationNeverServes(cfg, map[], [Event(Get("/"), h1, t1), Event(Get("/"), h2, t2)]);
  }

  /**
    Bypass on non-200, Cache-Control on: `/` is cached and its hit carries a Cache-Control
    value; `/error` answers 500, is never stored, and carries no Cache-Control.
   */
  lemma CustomNextScenario(b1: string, b2: string, e1: string, e2: string, t: int)
    ensures var cfg := NewConfig().(next := Some(NotOk), cacheControl := true);
      var r1 := Step(cfg, map[], Get("/"), Response(StatusOK, b1), t);
      var r2 := Step(cfg, r1.store, Get("/"), Response(StatusOK, b2), t);
      var r3 := Step(cfg, r2.store, Get("/error"), Response(500, e1), t);
      var r4 := Step(cfg, r3.store, Get("/error"), Response(500, e2), t);
      && r2.reply.body == r1.reply.body
      && r2.reply.cacheControl.Some? && r2.reply.cacheControl.value != ""
      && r3.reply.cacheStatus == Unreachable && "/error" !in r3.store
      && r4.reply.cacheStatus == Unreachable && r4.reply.cacheControl.None?
  {
    var cfg := NewConfig().(next := Some(NotOk), cacheControl := true);
    HitAfterMiss(cfg, map[], Get("/"), Response(StatusOK, b1), t, Get("/"), Response(StatusOK, b2), t);
  }

  /** A custom key generator: the entry of a miss is stored under the generated key. */
  lemma CustomKeyScenario(h: Response, t: int)
    ensures var cfg := NewConfig().(keyGenerator := Some((r: Request) => r.path));
      var r1 := Step(cfg, map[], Get("/"), h, t);
      r1.reply.cacheStatus == Miss && "/" in r1.store
  {
  }

  /**
    10 s lifetime, bypass on non-200: the status header reads `miss`, then `hit`, then
    `unreachable` for a POST and for a 500 response.
   */
  lemma CacheHeaderScenario(h1: Response, h2: Response, e: string, t: int)
    requires h1.status == StatusOK
    ensures var cfg := NewConfig().(expiration := 10, next := Some(NotOk));
      var r1 := Step(cfg, map[], Get("/"), h1, t);
      var r2 := Step(cfg, r1.store, Get("/"), h2, t);
      var r3 := Step(cfg, r2.store, Request("POST", "/", "cache=12345"), Response(StatusOK, "12345"), t);
      var r4 := Step(cfg, r3.store, Get("/error"), Response(500, e), t);
      && r1.reply.statusHeader == "X-Cache" && r1.reply.cacheStatus.Token() == "miss"
      && r2.reply.statusHeader == "X-Cache" && r2.reply.cacheStatus.Token() == "hit"
      && r3.reply.statusHeader == "X-Cache" && r3.reply.cacheStatus.Token() == "unreachable"
      && r4.reply.statusHeader == "X-Cache" && r4.reply.cacheStatus.Token() == "unreachable"
  {
    var cfg := NewConfig().(expiration := 10, next := Some(NotOk));
    HitAfterMiss(cfg, map[], Get("/"), h1, t, Get("/"), h2, t);
  }

  /** A custom status-header name carries the `miss` token of the first request. */
  lemma CustomCacheHeaderScenario(h: Response, t: int)
    ensures var r := Step(NewConfig().(cacheHeader := "Cache-Status"), map[], Get("/"), h, t);
      r.reply.statusHeader == "Cache-Status" && r.reply.cacheStatus.Token() == "miss"
  {
  }

  /**
    Repeated GETs of `/demo` whose handler answers 418 with a large body: whatever mix of
    hits and misses occurs, the last reply has status 418 and the full body.
   */
  lemma ReplayScenario(cfg: Config, body: string, times: seq<int>)
    requires |body| > 30000 && |times| >= 1
    ensures var evs := seq(|times|, i requires 0 <= i < |times| => Event(Get("/demo"), Response(418, body), times[i]));
      var last := Replay(cfg, map[], evs).replies[|times| - 1];
      last.status == 418 && last.body == body
  {
    var evs := seq(|times|, i requires 0 <= i < |times| => Event(Get("/demo"), Response(418, body), times[i]));
    var g := (k: string) => Response(418, body);
    KeyDeterminedReplies(cfg, map[], evs, g);
  }
}

=== FILE: decimal.dfy ===
/**
  Decimal rendering of natural numbers, as used for the `max-age` directive of the
  `Cache-Control` header, and its inverse, as used when a test reads a numeric body back.
 */
module Decimal {
  import opened Optional

  predicate IsDigit(c: char) {
    '0' <= c <= '9'
  }

  predicate AllDigits(s: string) {
    forall i :: 0 <= i < |s| ==> IsDigit(s[i])
  }

  function DigitValue(c: char): (d: nat)
    requires IsDigit(c)
    ensures d < 10
  {
    c as int - '0' as int
  }

  function DigitChar(d: nat): (c: char)
    requires d < 10
    ensures IsDigit(c) && DigitValue(c) == d
  {
    ('0' as int + d) as char
  }

  /** The shortest decimal numeral of `n`: digits only, and no leading zero except for 0 itself. */
  function FormatNat(n: nat): (s: string)
    ensures 1 <= |s|
    ensures AllDigits(s)
    ensures s[0] == '0' ==> n == 0
    decreases n
  {
    if n < 10 then [DigitChar(n)] else FormatNat(n / 10) + [DigitChar(n % 10)]
  }

  /** Reads a non-empty string of decimal digits; anything else has no value. */
  function ParseNat(s: string): (r: Option<nat>)
    ensures r.Some? <==> 1 <= |s| && AllDigits(s)
    decreases |s|
  {
    if |s| == 0 || !IsDigit(s[|s| - 1]) then None
    else if |s| == 1 then Some(DigitValue(s[0]))
    else
      match ParseNat(s[..|s| - 1])
      case None => None
      case Some(p) => Some(10 * p + DigitValue(s[|s| - 1]))
  }

  /** Reading a rendered number gives the number back. */
  lemma {:induction false} ParseFormat(n: nat)
    ensures ParseNat(FormatNat(n)) == Some(n)
    decreases n
  {
    if n >= 10 {
      var s := FormatNat(n);
      assert s[..|s| - 1] == FormatNat(n / 10);
      ParseFormat(n / 10);
    }
  }

  /** A numeral that does not start with '0' denotes a positive number. */
  lemma {:induction false} ParsePositive(s: string)
    requires 1 <= |s| && AllDigits(s) && s[0] != '0'
    ensures ParseNat(s).Some? && ParseNat(s).value >= 1
    decreases |s|
  {
    if |s| > 1 {
      var init := s[..|s| - 1];
      assert init[0] == s[0];
      ParsePositive(init);
    }
  }

  /** Rendering a parsed canonical numeral gives the numeral back. */
  lemma {:induction false} FormatParse(s: string)
    requires 1 <= |s| && AllDigits(s)
    requires s[0] != '0' || |s| == 1
    ensures ParseNat(s).Some? && FormatNat(ParseNat(s).value) == s
    decreases |s|
  {
    if |s| > 1 {
      var init := s[..|s| - 1];
      assert init[0] == s[0];
      ParsePositive(init);
      FormatParse(init);
      var p := ParseNat(init).value;
      var d := DigitValue(s[|s| - 1]);
      var n := 10 * p + d;
      assert n / 10 == p && n % 10 == d;
      assert DigitChar(d) == s[|s| - 1];
      assert s == init + [s[|s| - 1]];
    }
  }
}

=== FILE: optional.dfy ===
/** An optional value: the absent header, the missing cache entry, the string that does not parse. */
module Optional {

  datatype Option<+T> = None | Some(value: T)

}

=== FILE: trace.dfy ===
/** Sequences of requests handled one after another, sharing one store. */
module Trace {
  import opened Cache
  import opened CacheLaws

  /** One request, the response its handler would produce, and the time it arrives. */
  datatype Event = Event(request: Request, handler: Response, now: int)

  datatype Run = Run(replies: seq<Reply>, store: Store)

  /** Handles the events in order, threading the store from each step to the next. */
  function Replay(cfg: Config, st: Store, evs: seq<Event>): (r: Run)
    ensures |r.replies| == |evs|
    ensures forall i :: 0 <= i < |evs| ==> r.replies[i].statusHeader == StatusHeader(cfg)
    decreases |evs|
  {
    if |evs| == 0 then Run([], st)
    else
      var s := Step(cfg, st, evs[0].request, evs[0].handler, evs[0].now);
      var rest := Replay(cfg, s.store, evs[1..]);
      Run([s.reply] + rest.replies, rest.store)
  }

  /**
    With a negative expiration the store is never changed and never consulted, whatever it
    holds: no request is served from the cache, and each reply is its handler's live response.
   */
  lemma {:induction false} NegativeExpirationNeverServes(cfg: Config, st: Store, evs: seq<Event>)
    requires cfg.expiration < 0
    ensures Replay(cfg, st, evs).store == st
    ensures forall i :: 0 <= i < |evs| ==>
      && Replay(cfg, st, evs).replies[i].cacheStatus != Hit
      && Replay(cfg, st, evs).replies[i].body == evs[i].handler.body
    decreases |evs|
  {
    if |evs| > 0 {
      var e := evs[0];
      NegativeExpirationStoresNothing(cfg, st, e.request, e.handler, e.now);
      NegativeExpirationNeverServes(cfg, st, evs[1..]);
      var r := Replay(cfg, st, evs);
      forall i | 0 <= i < |evs|
        ensures r.replies[i].cacheStatus != Hit && r.replies[i].body == evs[i].handler.body
      {
        if i > 0 {
          assert r.replies[i] == Replay(cfg, st, evs[1..]).replies[i - 1];
          assert evs[1..][i - 1] == evs[i];
        }
      }
    }
  }

  /** Every stored entry holds the response `g` assigns to its key. */
  ghost predicate StoreAgrees(st: Store, g: string -> Response) {
    forall k :: k in st ==> st[k].status == g(k).status && st[k].body == g(k).body
  }

  /** Every handler responds with what `g` assigns to the request's key. */
  ghost predicate HandlersAgree(cfg: Config, evs: seq<Event>, g: string -> Response) {
    forall i :: 0 <= i < |evs| ==> evs[i].handler == g(Key(cfg, evs[i].request))
  }

  /**
    Keys never interfere: when each handler's response depends only on the request's key,
    every reply, cached or not, is the response for that key.
   */
  lemma {:induction false} KeyDeterminedReplies(cfg: Config, st: Store, evs: seq<Event>, g: string -> Response)
    requires StoreAgrees(st, g)
    requires HandlersAgree(cfg, evs, g)
    ensures StoreAgrees(Replay(cfg, st, evs).store, g)
    ensures forall i :: 0 <= i < |evs| ==>
      && Replay(cfg, st, evs).replies[i].status == g(Key(cfg, evs[i].request)).status
      && Replay(cfg, st, evs).replies[i].body == g(Key(cfg, evs[i].request)).body
    decreases |evs|
  {
    if |evs| > 0 {
      var e := evs[0];
      var s := Step(cfg, st, e.request, e.handler, e.now);
      assert e.handler == g(Key(cfg, e.request));
      forall k | k in s.store
        ensures s.store[k].status == g(k).status && s.store[k].body == g(k).body
      {
        if k != Key(cfg, e.request) {
          assert k in st;
        }
      }
      assert HandlersAgree(cfg, evs[1..], g) by {
        forall i | 0 <= i < |evs[1..]|
          ensures evs[1..][i].handler == g(Key(cfg, evs[1..][i].request))
        {
          assert evs[1..][i] == evs[i + 1];
        }
      }
      KeyDeterminedReplies(cfg, s.store, evs[1..], g);
      var r := Replay(cfg, st, evs);
      forall i | 0 <= i < |evs|
        ensures r.replies[i].status == g(Key(cfg, evs[i].request)).status
        ensures r.replies[i].body == g(Key(cfg, evs[i].request)).body
      {
        if i > 0 {
          assert r.replies[i] == Replay(cfg, s.store, evs[1..]).replies[i - 1];
          assert evs[1..][i - 1] == evs[i];
        }
      }
    }
  }

  /** Event times never go backwards, and none precedes `t`. */
  ghost predicate TimesFrom(evs: seq<Event>, t: int) {
    && (forall i :: 0 <= i < |evs| ==> t <= evs[i].now)
    && (forall i, j :: 0 <= i <= j < |evs| ==> evs[i].now <= evs[j].now)
  }

  /**
    Along any run with a forward-moving clock, starting from a store whose entries expire
    within one lifetime of the starting time `t` (an empty store, say), every
    Cache-Control value announces a `max-age` between 1 and the configured lifetime.
   */
  lemma {:induction false} MaxAgeBoundedAlongRun(cfg: Config, st: Store, t: int, evs: seq<Event>)
    requires EntriesWithin(st, t, Expiration(cfg))
    requires TimesFrom(evs, t)
    ensures forall i :: 0 <= i < |evs| && Replay(cfg, st, evs).replies[i].cacheControl.Some? ==>
      var age := ParseCacheControl(Replay(cfg, st, evs).replies[i].cacheControl.value);
      age.Some? && 1 <= age.value <= Expiration(cfg)
    decreases |evs|
  {
    if |evs| > 0 {
      var e := evs[0];
      var s := Step(cfg, st, e.request, e.handler, e.now);
      MaxAgeBounded(cfg, st, e.request, e.handler, t, e.now);
      StepKeepsEntriesWithin(cfg, st, e.request, e.handler, t, e.now);
      assert TimesFrom(evs[1..], e.now) by {
        forall i | 0 <= i < |evs[1..]|
          ensures e.now <= evs[1..][i].now
        {
          assert evs[1..][i] == evs[i + 1];
        }
        forall i, j | 0 <= i <= j < |evs[1..]|
          ensures evs[1..][i].now <= evs[1..][j].now
        {
          assert evs[1..][i] == evs[i + 1] && evs[1..][j] == evs[j + 1];
        }
      }
      MaxAgeBoundedAlongRun(cfg, s.store, e.now, evs[1..]);
      var r := Replay(cfg, st, evs);
      forall i | 0 < i < |evs| && r.replies[i].cacheControl.Some?
        ensures var age := ParseCacheControl(r.replies[i].cacheControl.value);
          age.Some? && 1 <= age.value <= Expiration(cfg)
      {
        assert r.replies[i] == Replay(cfg, s.store, evs[1..]).replies[i - 1];
      }
    }
  }
}
